=== FILE: README.md ===
# SMART Health Card reader: decoding core in Dafny

This project models the decoding core of `smart_health_card_reader/parse.py`, a reader for
SMART Health Card QR codes. A card's QR code carries `shc:/` followed by digits. Each pair of
digits is one character of a JWS in Compact Serialization (section 7.1 of RFC 7515). The
character's code point is the two-digit number plus 45.

The reader does the following:

- strips the optional `shc:/` marker;
- transcodes the digit pairs back to text, rejecting non-digits and odd lengths;
- splits the text on `.` into header, payload and signature segments;
- re-joins the first two segments as the signed document;
- slices the decoded signature into R and S (section 3.4 of RFC 7518);
- derives the key-set URL `{iss}/.well-known/jwks.json`;
- picks the first key in the issuer's JWK Set (section 5 of RFC 7517) with the header's `kid` that is
  a public `EC`/`sig`/`ES256`/`P-256` key;
- reads the coordinates and signature halves as big-endian integers and hands them to ECDSA.

Modules, one per component:

- `Text`: `str.split` and `str.join` on one character.
- `Prefix`: `remove_prefix`.
- `Transcoder`: `qr_int_str_to_b64`. The method `QrIntStrToB64` keeps the source's loop. It is
  proved equal to the function `Transcode`, which the pure parts of the model use. The
  framework's encoder `Encode` is proved to be its inverse, in both directions.
- `BigEndian`: bytes and `int.from_bytes(..., "big")`, with its fixed-width inverse.
- `Jose`: the parsed header, payload and key records. It also holds `Library`, which bundles the
  library calls the reader makes (base64, raw inflate, UTF-8, JSON, HTTP fetch, ECDSA) as
  function values.
- `Compact`: `b64_decode` (which appends `"=="`), `b64_to_fields`, and the signed document.
- `Signature`: `decode_sig`.
- `KeyResolution`: `get_public_key_url` and `get_public_key_from_keyset`. The method
  `GetPublicKeyFromKeyset` keeps the source's loop, with its `continue`s. It is proved equal to
  the function `PublicKeyFromKeyset`.
- `Pipeline`: `extract_jws_data_from_qr_data` and `validate_jws_data`.

Library failures (the exceptions the reader lets escape) are `None` results of the `Library`
functions, including `ecdsaVerify`, which is `None` where building the public point or
`ecdsa.verify` raises. The model turns them into `Failure` values that name the step that failed.

## Model

| member | source | states |
|---|---|---|
| Prefix.RemovePrefix | smart_health_card_reader/parse.py:16-23 | if the text starts with the prefix, the result is what follows the prefix; otherwise the text is returned unchanged |
| Prefix.RemoveAddedPrefix | smart_health_card_reader/parse.py:21-22 | removing a prefix that was just prepended gives the original text |
| Prefix.RemoveShcPrefixFromDigits | smart_health_card_reader/parse.py:153 | stripping `shc:/` from a bare digit string is the identity, so stripping is always safe |
| Transcoder.Transcode | smart_health_card_reader/parse.py:48-69 | fails with the non-digit error exactly when some character is not 0-9, reporting exactly the set of such characters; among all-digit inputs, fails with the length exactly when the length is odd; otherwise succeeds with a text half as long |
| Transcoder.QrIntStrToB64 | smart_health_card_reader/parse.py:48-69 | the validate-then-append loop computes exactly `Transcode` on every input, errors included |
| Transcoder.NonDigitsEmpty | smart_health_card_reader/parse.py:56-58 | the set of invalid characters is empty if and only if every character is a digit |
| Transcoder.DecodePairs | smart_health_card_reader/parse.py:65-69 | decoding valid digits gives one character per pair |
| Transcoder.DecodePairsAt | smart_health_card_reader/parse.py:67 | output character i has code 10·d[2i] + d[2i+1] + 45 |
| Transcoder.TranscodeAt | smart_health_card_reader/parse.py:65-69 | on valid input, output character i has code 10·d[2i] + d[2i+1] + 45, which lies in [45, 144] |
| Transcoder.DecodePairsAppend | smart_health_card_reader/parse.py:65-69 | decoding distributes over concatenation of even-length digit strings |
| Transcoder.TranscodeAppend | smart_health_card_reader/parse.py:65-69 | if two inputs transcode successfully, their concatenation transcodes to the concatenation of the outputs |
| Transcoder.Encode | smart_health_card_reader/parse.py:65-69 | the encoder that `qr_int_str_to_b64` reverses writes two digits per character and produces only digits |
| Transcoder.DecodeEncode | smart_health_card_reader/parse.py:65-69 | decoding undoes the encoder for every character in [45, 144] |
| Transcoder.EncodeDecode | smart_health_card_reader/parse.py:65-69 | encoding undoes decoding for every valid digit string, so the numeric encoding is a bijection |
| Transcoder.ConversionExamples | tests/test_qr_int_str_to_b64.py:7-16 | "43" transcodes to "X" and "4343" to "XX" |
| Transcoder.RejectionExamples | tests/test_qr_int_str_to_b64.py:19-23 | "abc", "123#", "A123", "--12" and "123 " are rejected, and "123" is rejected for odd length 3 |
| Text.Split | smart_health_card_reader/parse.py:78 | `split(".")` yields one more piece than there are separators, and no piece contains a separator |
| Text.JoinSplit | smart_health_card_reader/parse.py:156 | joining the pieces of a split with the separator gives the original string |
| Text.SplitJoin | smart_health_card_reader/parse.py:156 | splitting a join of separator-free pieces gives the same pieces |
| Text.JoinAppend | smart_health_card_reader/parse.py:156 | joining two non-empty lists of pieces puts exactly one separator between their joins |
| Compact.B64ToFields | smart_health_card_reader/parse.py:72-82 | succeeds exactly when there are at least three segments, segment 0 decodes to UTF-8 text and segment 1 decodes, inflates and decodes to UTF-8 text; then the header is segment 0's text, the payload segment 1's inflated text and the signature segment 2 unchanged (dot-free); each of the seven errors holds exactly when its step is the first to fail: header base64, header UTF-8, missing payload segment, payload base64, raw inflate, payload UTF-8, missing signature segment |
| Compact.SignedDoc | smart_health_card_reader/parse.py:156 | with at least two segments the signed document is segment 0, a dot, segment 1, and contains exactly one dot |
| Compact.SignedDocPrefix | smart_health_card_reader/parse.py:153-157 | with at least three segments the serialization is the signed document, a dot, and the remaining segments joined |
| Compact.SignedDocAndSignature | smart_health_card_reader/parse.py:78-81 | with exactly three segments, signed document + "." + signature segment == the serialization |
| Signature.SliceSig | smart_health_card_reader/parse.py:97-100 | R + S is the first min(64, n) bytes of the decoded signature, R has min(32, n) bytes, and S has at most 32 |
| Signature.DecodeSig | smart_health_card_reader/parse.py:91-100 | fails exactly when base64 decoding fails; otherwise the result is `SliceSig` of the decoded bytes (R the first 32 bytes, R + S the first 64, each clamped to the length) |
| Signature.SliceExact | smart_health_card_reader/parse.py:97-100 | a 64-byte signature splits into two 32-byte halves whose concatenation is the signature |
| Signature.SliceIntegers | smart_health_card_reader/parse.py:181-183 | for at least 64 bytes, R and S are below 2^256 and R·2^256 + S is the big-endian reading of the first 64 bytes |
| BigEndian.FromBytes | smart_health_card_reader/parse.py:179-183 | the big-endian reading of n bytes is below 256^n |
| BigEndian.ToBytes | smart_health_card_reader/parse.py:179-183 | the fixed-width big-endian encoding has exactly the requested number of bytes |
| BigEndian.FromToBytes | smart_health_card_reader/parse.py:179-183 | reading a fixed-width encoding gives the number back |
| BigEndian.ToFromBytes | smart_health_card_reader/parse.py:179-183 | encoding the reading of a byte string at its own width gives the bytes back |
| BigEndian.FromBytesAppend | smart_health_card_reader/parse.py:179-183 | reading a concatenation shifts the leading part by the trailing part's width |
| BigEndian.LeadingZero | smart_health_card_reader/parse.py:179-183 | a leading zero byte does not change the number |
| KeyResolution.KeyUrl | smart_health_card_reader/parse.py:107 | the URL starts with the issuer and ends with `/.well-known/jwks.json`, nothing else in between |
| KeyResolution.KeyUrlInjective | smart_health_card_reader/parse.py:107 | different issuers give different key URLs |
| KeyResolution.GetPublicKeyUrl | smart_health_card_reader/parse.py:103-107 | fails exactly when the payload does not parse; otherwise it is the key URL of the payload's issuer |
| KeyResolution.FirstMatchFrom | smart_health_card_reader/parse.py:122-135 | the position found qualifies and no earlier position (from the start) qualifies; none is found only when no position qualifies |
| KeyResolution.FindKey | smart_health_card_reader/parse.py:122-136 | KeyNotFound(kid) exactly when no record qualifies; otherwise the record at the first qualifying position |
| KeyResolution.FirstMatchUnique | smart_health_card_reader/parse.py:122-135 | the first qualifying position is unique |
| KeyResolution.SkipNonQualifying | smart_health_card_reader/parse.py:124-134 | removing any non-qualifying record (including a `kid` match with a wrong `kty`, `use`, `alg`, `crv`, or with `d`) does not change the result |
| KeyResolution.FindKeyIsPublicSigningKey | smart_health_card_reader/parse.py:124-135 | the chosen record is in the set, has the requested `kid`, is an EC key for signing (`use` "sig") with algorithm ES256 on curve P-256, and has no private part |
| KeyResolution.PublicKeyFromKeyset | smart_health_card_reader/parse.py:117-136 | MalformedKeySet exactly when the text does not parse; success whenever the set has `keys` and some record qualifies; NoKeysMember exactly when it parses without `keys`; KeyNotFound exactly when it parses, has `keys`, and no record qualifies; a returned key is the record at the first qualifying position of `keys` |
| KeyResolution.GetPublicKeyFromKeyset | smart_health_card_reader/parse.py:117-136 | the scan with its `continue`s and early return computes exactly `PublicKeyFromKeyset`, errors included |
| Pipeline.ExtractJwsData | smart_health_card_reader/parse.py:139-157 | a transcoding error is reported as is, and a segment error of a valid serialization as `BadSegments`; it succeeds exactly when both steps do, and then the serialization has at least three segments, the header is segment 0's text, the payload segment 1's inflated text, the signed document is segment 0 + "." + segment 1 with exactly one dot, and the signature is segment 2 |
| Pipeline.ExtractRejectsBadDigits | smart_health_card_reader/parse.py:153-154 | a QR text with non-digits after the optional marker is rejected with exactly those characters; an odd number of digits is rejected with the length |
| Pipeline.ExtractReassembles | smart_health_card_reader/parse.py:153-157 | for a three-segment card, signed document + "." + signature == the transcoded text |
| Pipeline.ExtractPrefixOptional | smart_health_card_reader/parse.py:153 | `shc:/` + digits and the bare digits extract the same data |
| Pipeline.ValidateJwsData | smart_health_card_reader/parse.py:160-184 | each error holds exactly when its step is the first to fail: header JSON (MalformedHeader), payload JSON (MalformedPayload), key-set fetch (KeySetUnavailable), key lookup (NoKey, carrying the lookup's own error), key coordinates (BadKeyCoordinate), signature base64 (BadSignatureEncoding), the verifier raising (VerifierRaised); otherwise the result is the verifier's true or false over the big-endian R, S and coordinates, so a failing step is never reported as `false` |
| Pipeline.ValidateWithoutKey | smart_health_card_reader/parse.py:172-176 | when no record in the fetched key set qualifies for the header's `kid`, validation fails with KeyNotFound and never verifies |
| Pipeline.ValidateUsesFirstQualifyingKey | smart_health_card_reader/parse.py:172-184 | for a decoded signature of any length, the outcome is ECDSA over the signed document with R = bytes [0, 32) and S = bytes [32, 64) (clamped to the length) and the coordinates of the first qualifying key: its verdict, or VerifierRaised where the verifier raises |

## Left out

- `img_to_qr_data` (parse.py:26-45): image reading and QR detection are done by cv2 and pyzbar, which are outside this model.
- `get_public_keyset_json` (parse.py:110-114): the HTTP fetch is the `fetch` field of `Library`. Its result is taken as given.
- `ecdsa.verify` and `Point(pk_x, pk_y)` (parse.py:184): elliptic-curve cryptography is the uninterpreted `ecdsaVerify` field of `Library`. Its `None` stands for every exception they raise (a point off the curve, R or S outside [1, n-1], as for a short signature whose S is 0); which inputs raise is not modelled.
- `base64.b64decode`, `zlib.decompress(..., -15)`, `bytes.decode("utf-8")` and `json.loads` are opaque `Library` functions. Only the `"=="` padding that `b64_decode` adds is modelled.
- JSON values are modelled as already-parsed records with required fields. The `KeyError` Python raises for a missing `kid`, `kty`, `use`, `alg`, `crv`, `x`, `y` or `iss` is not modelled; the `parse*` functions returning None stands for every parse failure.
- The `isinstance(pk["x"], str)` assertions (parse.py:177-178) hold by typing: coordinates are strings in `KeyRecord`.
- The `__main__` prompt-and-print loop (parse.py:187-194) is interactive I/O.
- `smart_health_card_reader/validate.py` (command-line tool, FHIR bundle summary) and `config.py` (vaccine-name table) are not part of this model.
- Signature.DecodeSig: like the source, it does not check that the signature is 64 bytes long, although the docstring at parse.py:95 promises two 32-byte parts. `SliceSig` states what happens for other lengths.
- Python's `str` allows lone surrogate code points, which Dafny's `char` excludes. Transcoded characters are in [45, 144], but a scanned QR text holding a lone surrogate cannot be represented; Python would report it in the NonNumeric set.

=== FILE: bigendian.dfy ===
/** Bytes and the big-endian unsigned reading of a byte string, as `int.from_bytes(b, byteorder="big")`. */
module BigEndian {

  newtype byte = b: int | 0 <= b < 256

  function Pow256(n: nat): (p: nat)
    ensures p >= 1
  {
    if n == 0 then 1 else 256 * Pow256(n - 1)
  }

  /** `int.from_bytes(bs, byteorder="big")`: the first byte is the most significant. */
  function FromBytes(bs: seq<byte>): (n: nat)
    ensures n < Pow256(|bs|)
  {
    if bs == [] then 0
    else
      var high := FromBytes(bs[..|bs| - 1]);
      var low := bs[|bs| - 1] as nat;
      assert high * 256 + low < 256 * Pow256(|bs| - 1) by {
        assert high <= Pow256(|bs| - 1) - 1;
        assert high * 256 <= (Pow256(|bs| - 1) - 1) * 256;
      }
      high * 256 + low
  }

  /** The `len`-byte big-endian encoding of `n` (the inverse of `FromBytes` at a fixed width). */
  function ToBytes(n: nat, len: nat): (bs: seq<byte>)
    requires n < Pow256(len)
    ensures |bs| == len
  {
    if len == 0 then []
    else
      assert n / 256 < Pow256(len - 1);
      ToBytes(n / 256, len - 1) + [(n % 256) as byte]
  }

  /** Reading back a fixed-width encoding gives the number. */
  lemma {:induction false} FromToBytes(n: nat, len: nat)
    requires n < Pow256(len)
    ensures FromBytes(ToBytes(n, len)) == n
  {
    if len > 0 {
      var bs := ToBytes(n, len);
      assert bs[..len - 1] == ToBytes(n / 256, len - 1);
      FromToBytes(n / 256, len - 1);
    }
  }

  /** Encoding the reading of a byte string at its own width gives the bytes back. */
  lemma {:induction false} ToFromBytes(bs: seq<byte>)
    ensures ToBytes(FromBytes(bs), |bs|) == bs
  {
    if bs != [] {
      var high, low := FromBytes(bs[..|bs| - 1]), bs[|bs| - 1] as nat;
      assert (high * 256 + low) / 256 == high && (high * 256 + low) % 256 == low;
      ToFromBytes(bs[..|bs| - 1]);
      assert bs[..|bs| - 1] + [bs[|bs| - 1]] == bs;
    }
  }

  /** The reading of a concatenation: the leading part is shifted by the width of the trailing part. */
  lemma {:induction false} FromBytesAppend(a: seq<byte>, b: seq<byte>)
    ensures FromBytes(a + b) == FromBytes(a) * Pow256(|b|) + FromBytes(b)
  {
    if b == [] {
      assert a + b == a;
    } else {
      var b' := b[..|b| - 1];
      assert (a + b)[..|a + b| - 1] == a + b';
      FromBytesAppend(a, b');
      var x, p, y, last := FromBytes(a), Pow256(|b'|), FromBytes(b'), b[|b| - 1] as nat;
      assert FromBytes(a + b) == (x * p + y) * 256 + last;
      assert FromBytes(b) == y * 256 + last;
      assert Pow256(|b|) == 256 * p;
      Shift(x, p, y, last);
    }
  }

  lemma Shift(x: nat, p: nat, y: nat, last: nat)
    ensures (x * p + y) * 256 + last == x * (256 * p) + (y * 256 + last)
  {
  }

  /** Leading zero bytes do not change the number. */
  lemma LeadingZero(bs: seq<byte>)
    ensures FromBytes([0] + bs) == FromBytes(bs)
  {
    FromBytesAppend([0], bs);
    assert [0 as byte][..0] == [];
  }
}

=== FILE: compact.dfy ===
/**
 * The JWS Compact Serialization (section 7.1 of RFC 7515) as the reader
 * handles it: three `.`-separated base64url segments, and the signed
 * document re-joined from the first two.
 */
module Compact {
  import opened Wrappers
  import opened BigEndian
  import opened Text
  import opened Jose

  const Dot: char := '.'

  /** Python clamps slice bounds to the length of the sequence; this is that clamp. */
  function Min(a: int, b: int): int
  {
    if a <= b then a else b
  }

  /** `b64_decode`: the segment is padded with "==" before the library decodes it. */
  function B64Decode(b64: string, lib: Library): Option<seq<byte>>
  {
    lib.base64Decode(b64 + "==")
  }

  /** Which step of `b64_to_fields` failed. */
  datatype FieldError =
    | HeaderNotBase64
    | HeaderNotUtf8
    | NoPayloadSegment    // IndexError on raws[1]
    | PayloadNotBase64
    | PayloadNotInflatable
    | PayloadNotUtf8
    | NoSignatureSegment  // IndexError on raws[2]

  /** The header and payload as JSON text, and the signature segment still encoded. */
  datatype Fields = Fields(header: string, payload: string, signature: string)

  /** `b64_decode(seg).decode("utf-8")`: the JSON text of the header segment. */
  function HeaderText(seg: string, lib: Library): Option<string>
  {
    match B64Decode(seg, lib)
    case None => None
    case Some(bytes) => lib.utf8Decode(bytes)
  }

  /** `zlib.decompress(b64_decode(seg), -15).decode("utf-8")`: the JSON text of the payload segment. */
  function PayloadText(seg: string, lib: Library): Option<string>
  {
    match B64Decode(seg, lib)
    case None => None
    case Some(compressed) =>
      match lib.inflateRaw(compressed)
      case None => None
      case Some(bytes) => lib.utf8Decode(bytes)
  }

  /**
   * `b64_to_fields`: split on `.`; decode the header segment; decode and
   * raw-inflate the payload segment; keep the third segment as it is.
   * Segments after the third are ignored.
   */
  function B64ToFields(b64: string, lib: Library): (r: Result<Fields, FieldError>)
    ensures r.Success? <==>
      && |Split(b64, Dot)| >= 3
      && HeaderText(Split(b64, Dot)[0], lib).Some?
      && PayloadText(Split(b64, Dot)[1], lib).Some?
    ensures r.Success? ==>
      && Some(r.value.header) == HeaderText(Split(b64, Dot)[0], lib)
      && Some(r.value.payload) == PayloadText(Split(b64, Dot)[1], lib)
      && r.value.signature == Split(b64, Dot)[2] && Dot !in r.value.signature
    ensures r == Failure(HeaderNotBase64) <==> B64Decode(Split(b64, Dot)[0], lib).None?
    ensures r == Failure(HeaderNotUtf8) <==>
      B64Decode(Split(b64, Dot)[0], lib).Some? && HeaderText(Split(b64, Dot)[0], lib).None?
    ensures r == Failure(PayloadNotBase64) <==>
      && HeaderText(Split(b64, Dot)[0], lib).Some? && |Split(b64, Dot)| >= 2
      && B64Decode(Split(b64, Dot)[1], lib).None?
    ensures r == Failure(PayloadNotInflatable) <==>
      && HeaderText(Split(b64, Dot)[0], lib).Some? && |Split(b64, Dot)| >= 2
      && B64Decode(Split(b64, Dot)[1], lib).Some?
      && lib.inflateRaw(B64Decode(Split(b64, Dot)[1], lib).value).None?
    ensures r == Failure(PayloadNotUtf8) <==>
      && HeaderText(Split(b64, Dot)[0], lib).Some? && |Split(b64, Dot)| >= 2
      && B64Decode(Split(b64, Dot)[1], lib).Some?
      && lib.inflateRaw(B64Decode(Split(b64, Dot)[1], lib).value).Some?
      && PayloadText(Split(b64, Dot)[1], lib).None?
    ensures r == Failure(NoPayloadSegment) <==> HeaderText(Split(b64, Dot)[0], lib).Some? && |Split(b64, Dot)| == 1
    ensures r == Failure(NoSignatureSegment) <==>
      && HeaderText(Split(b64, Dot)[0], lib).Some? && |Split(b64, Dot)| == 2
      && PayloadText(Split(b64, Dot)[1], lib).Some?
  {
    var raws := Split(b64, Dot);
    match B64Decode(raws[0], lib)
    case None => Failure(HeaderNotBase64)
    case Some(headerBytes) =>
      match lib.utf8Decode(headerBytes)
      case None => Failure(HeaderNotUtf8)
      case Some(header) =>
        if |raws| < 2 then Failure(NoPayloadSegment)
        else
          match B64Decode(raws[1], lib)
          case None => Failure(PayloadNotBase64)
          case Some(compressed) =>
            match lib.inflateRaw(compressed)
            case None => Failure(PayloadNotInflatable)
            case Some(payloadBytes) =>
              match lib.utf8Decode(payloadBytes)
              case None => Failure(PayloadNotUtf8)
              case Some(payload) =>
                if |raws| < 3 then Failure(NoSignatureSegment)
                else Success(Fields(header, payload, raws[2]))
  }

  /** `".".join(b64.split(".")[0:2])`: the part of the serialization the signature covers. */
  function SignedDoc(b64: string): (doc: string)
    ensures |Split(b64, Dot)| == 1 ==> doc == b64
    ensures |Split(b64, Dot)| >= 2 ==>
      doc == Split(b64, Dot)[0] + [Dot] + Split(b64, Dot)[1] && Count(doc, Dot) == 1
  {
    var raws := Split(b64, Dot);
    var doc := Join(raws[..Min(2, |raws|)], Dot);
    if |raws| == 1 then
      JoinSplit(b64, Dot);
      doc
    else
      assert Min(2, |raws|) == 2 && raws[..2][0] == raws[0];
      assert raws[..2][1..] == [raws[1]];
      assert Join([raws[1]], Dot) == raws[1];
      assert doc == raws[0] + [Dot] + raws[1];
      CountAppend(raws[0] + [Dot], raws[1], Dot);
      CountAppend(raws[0], [Dot], Dot);
      CountAbsent(raws[0], Dot);
      CountAbsent(raws[1], Dot);
      doc
  }

  /**
   * With at least three segments the signed document is a prefix of the
   * serialization: it, a dot, and the remaining segments give the serialization back.
   */
  lemma SignedDocPrefix(b64: string)
    requires |Split(b64, Dot)| >= 3
    ensures b64 == SignedDoc(b64) + [Dot] + Join(Split(b64, Dot)[2..], Dot)
  {
    var raws := Split(b64, Dot);
    JoinSplit(b64, Dot);
    JoinAppend(raws[..2], raws[2..], Dot);
    assert raws[..2] + raws[2..] == raws;
  }

  /**
   * For a well-formed three-segment serialization the signed document and the
   * signature segment, joined by a dot, are exactly the serialization.
   */
  lemma SignedDocAndSignature(b64: string)
    requires |Split(b64, Dot)| == 3
    ensures SignedDoc(b64) + [Dot] + Split(b64, Dot)[2] == b64
  {
    SignedDocPrefix(b64);
    assert Split(b64, Dot)[2..] == [Split(b64, Dot)[2]];
  }
}

=== FILE: jose.dfy ===
/**
 * The already-parsed JSON records the reader works with, and the library
 * calls it makes (base64, raw inflate, UTF-8, JSON, HTTP, ECDSA), which are
 * outside this model and are passed in as total functions.
 */
module Jose {
  import opened Wrappers
  import opened BigEndian

  /** The JWS header; the reader only looks at its key identifier. */
  datatype Header = Header(kid: string)

  /** The JWS payload; the reader only looks at its issuer URL. */
  datatype Payload = Payload(iss: string)

  /** One JSON Web Key of the issuer's key set (section 4 of RFC 7517). */
  datatype KeyRecord = KeyRecord(
    kid: string,
    kty: string,
    use: string,
    alg: string,
    crv: string,
    x: string,
    y: string,
    hasPrivatePart: bool)  // whether the record has a "d" member

  /** A parsed JWK Set document; `keys` is None when it has no "keys" member. */
  datatype JwkSet = JwkSet(keys: Option<seq<KeyRecord>>)

  /**
   * The library functions the reader calls. Each returns None where the
   * library raises; `ecdsaVerify` also covers the construction of the public
   * point, which raises for a point off the curve, and raises itself for R or
   * S outside [1, n-1].
   */
  datatype Library = Library(
    base64Decode: string -> Option<seq<byte>>,  // base64.b64decode(s, altchars=b"-_", validate=True)
    inflateRaw: seq<byte> -> Option<seq<byte>>,  // zlib.decompress(b, -15)
    utf8Decode: seq<byte> -> Option<string>,     // bytes.decode("utf-8")
    parseHeader: string -> Option<Header>,       // json.loads, then ["kid"]
    parsePayload: string -> Option<Payload>,     // json.loads, then ["iss"]
    parseKeySet: string -> Option<JwkSet>,       // json.loads of a key-set document
    fetch: string -> Option<string>,             // urllib.request.urlopen(url).read().decode("utf-8")
    ecdsaVerify: (nat, nat, string, nat, nat) -> Option<bool>)  // ecdsa.verify((r, s), msg, Point(x, y)) on P-256
}

=== FILE: keys.dfy ===
/**
 * Locating the issuer's key set (`{iss}/.well-known/jwks.json`) and choosing
 * the verification key in it: the first record with the requested key
 * identifier that is a public ES256 signing key on P-256.
 */
module KeyResolution {
  import opened Wrappers
  import opened Jose

  const WellKnownJwks: string := "/.well-known/jwks.json"

  /** `f"{iss}/.well-known/jwks.json"` */
  function KeyUrl(iss: string): (url: string)
    ensures |url| == |iss| + |WellKnownJwks| && iss <= url && url[|iss|..] == WellKnownJwks
  {
    iss + WellKnownJwks
  }

  /** Different issuers have different key URLs: the URL determines the issuer. */
  lemma KeyUrlInjective(a: string, b: string)
    requires KeyUrl(a) == KeyUrl(b)
    ensures a == b
  {
  }

  /** `get_public_key_url`: parse the payload and derive the URL from its issuer. */
  function GetPublicKeyUrl(payloadJson: string, lib: Library): (r: Option<string>)
    ensures r.Some? <==> lib.parsePayload(payloadJson).Some?
    ensures r.Some? ==> r.value == KeyUrl(lib.parsePayload(payloadJson).value.iss)
  {
    match lib.parsePayload(payloadJson)
    case None => None
    case Some(payload) => Some(KeyUrl(payload.iss))
  }

  /** A record the reader accepts for `kid`: public ES256 signing key on P-256. */
  predicate Qualifies(k: KeyRecord, kid: string)
  {
    && k.kid == kid
    && k.kty == "EC"
    && k.use == "sig"
    && k.alg == "ES256"
    && k.crv == "P-256"
    && !k.hasPrivatePart
  }

  /** `i` is the position of the first qualifying record. */
  predicate IsFirstMatch(keys: seq<KeyRecord>, kid: string, i: int)
  {
    && 0 <= i < |keys|
    && Qualifies(keys[i], kid)
    && forall j :: 0 <= j < i ==> !Qualifies(keys[j], kid)
  }

  /** Why no key was returned. */
  datatype KeyError =
    | MalformedKeySet        // json.loads failed
    | NoKeysMember           // the assertion that "keys" is present failed
    | KeyNotFound(kid: string)

  /** Position of the first qualifying record at or after `start`. */
  function FirstMatchFrom(keys: seq<KeyRecord>, kid: string, start: nat): (r: Option<nat>)
    requires start <= |keys|
    ensures r.Some? ==> start <= r.value < |keys| && Qualifies(keys[r.value], kid)
    ensures r.Some? ==> forall j :: start <= j < r.value ==> !Qualifies(keys[j], kid)
    ensures r.None? ==> forall j :: start <= j < |keys| ==> !Qualifies(keys[j], kid)
    decreases |keys| - start
  {
    if start == |keys| then None
    else if Qualifies(keys[start], kid) then Some(start)
    else FirstMatchFrom(keys, kid, start + 1)
  }

  /** The record the scan returns, or KeyNotFound. */
  function FindKey(keys: seq<KeyRecord>, kid: string): (r: Result<KeyRecord, KeyError>)
    ensures r.Failure? <==> forall i :: 0 <= i < |keys| ==> !Qualifies(keys[i], kid)
    ensures r.Failure? ==> r.error == KeyNotFound(kid)
    ensures r.Success? ==> exists i :: IsFirstMatch(keys, kid, i) && keys[i] == r.value
  {
    match FirstMatchFrom(keys, kid, 0)
    case None => Failure(KeyNotFound(kid))
    case Some(i) =>
      assert IsFirstMatch(keys, kid, i);
      Success(keys[i])
  }

  /** There is at most one first match. */
  lemma FirstMatchUnique(keys: seq<KeyRecord>, kid: string, i: int, j: int)
    requires IsFirstMatch(keys, kid, i) && IsFirstMatch(keys, kid, j)
    ensures i == j
  {
  }

  /**
   * A record that does not qualify can be removed without changing the
   * outcome: a record with the right `kid` but a wrong `kty`, `use`, `alg`,
   * `crv`, or a private part, is skipped.
   */
  lemma SkipNonQualifying(keys: seq<KeyRecord>, kid: string, i: int)
    requires 0 <= i < |keys| && !Qualifies(keys[i], kid)
    ensures FindKey(keys[..i] + keys[i + 1..], kid) == FindKey(keys, kid)
  {
    var rest := keys[..i] + keys[i + 1..];
    assert forall j :: 0 <= j < i ==> rest[j] == keys[j];
    assert forall j :: i <= j < |rest| ==> rest[j] == keys[j + 1];
    var a, b := FindKey(rest, kid), FindKey(keys, kid);
    if b.Success? {
      var m :| IsFirstMatch(keys, kid, m) && keys[m] == b.value;
      var m' := if m < i then m else m - 1;
      assert IsFirstMatch(rest, kid, m');
      if a.Success? {
        var n :| IsFirstMatch(rest, kid, n) && rest[n] == a.value;
        FirstMatchUnique(rest, kid, n, m');
      }
    } else {
      forall j | 0 <= j < |rest| ensures !Qualifies(rest[j], kid) {
        assert rest[j] == keys[if j < i then j else j + 1];
      }
    }
  }

  /**
   * The chosen record is one of the set, has the requested key identifier, is
   * an EC signing key for ES256 on P-256, and never carries a private key.
   */
  lemma FindKeyIsPublicSigningKey(keys: seq<KeyRecord>, kid: string)
    requires FindKey(keys, kid).Success?
    ensures var k := FindKey(keys, kid).value;
      && k in keys && k.kid == kid && k.kty == "EC" && k.use == "sig"
      && k.alg == "ES256" && k.crv == "P-256" && !k.hasPrivatePart
  {
  }

  /** What `get_public_key_from_keyset` returns or raises for a key-set document. */
  function PublicKeyFromKeyset(pkJson: string, kid: string, parse: string -> Option<JwkSet>): (r: Result<KeyRecord, KeyError>)
    ensures r == Failure(MalformedKeySet) <==> parse(pkJson).None?
    ensures r == Failure(NoKeysMember) <==> parse(pkJson).Some? && parse(pkJson).value.keys.None?
    ensures r.Success? ==> parse(pkJson).Some? && parse(pkJson).value.keys.Some?
    ensures parse(pkJson).Some? && parse(pkJson).value.keys.Some? &&
      (exists i :: 0 <= i < |parse(pkJson).value.keys.value| && Qualifies(parse(pkJson).value.keys.value[i], kid))
      ==> r.Success?
    ensures r.Success? ==>
      exists i :: IsFirstMatch(parse(pkJson).value.keys.value, kid, i) && parse(pkJson).value.keys.value[i] == r.value
    ensures r == Failure(KeyNotFound(kid)) <==>
      parse(pkJson).Some? && parse(pkJson).value.keys.Some? &&
      forall i :: 0 <= i < |parse(pkJson).value.keys.value| ==> !Qualifies(parse(pkJson).value.keys.value[i], kid)
  {
    match parse(pkJson)
    case None => Failure(MalformedKeySet)
    case Some(doc) =>
      match doc.keys
      case None => Failure(NoKeysMember)
      case Some(keys) => FindKey(keys, kid)
  }

  /**
   * `get_public_key_from_keyset`: scan the records in order, skip each one
   * whose `kid` differs or that fails one of the checks, return the first
   * that passes them all.
   */
  method GetPublicKeyFromKeyset(pkJson: string, kid: string, parse: string -> Option<JwkSet>)
    returns (r: Result<KeyRecord, KeyError>)
    ensures r == PublicKeyFromKeyset(pkJson, kid, parse)
  {
    var doc := parse(pkJson);
    if doc.None? {
      return Failure(MalformedKeySet);
    }
    if doc.value.keys.None? {
      return Failure(NoKeysMember);
    }
    var keys := doc.value.keys.value;
    var i := 0;
    while i < |keys|
      invariant 0 <= i <= |keys|
      invariant forall j :: 0 <= j < i ==> !Qualifies(keys[j], kid)
    {
      var pk := keys[i];
      i := i + 1;
      if pk.kid == kid {
        if pk.kty != "EC" {
          continue;
        }
        if pk.use != "sig" {
          continue;
        }
        if pk.alg != "ES256" {
          continue;
        }
        if pk.crv != "P-256" {
          continue;
        }
        if pk.hasPrivatePart {
          continue;
        }
        assert IsFirstMatch(keys, kid, i - 1);
        var found := FindKey(keys, kid);
        var m :| IsFirstMatch(keys, kid, m) && keys[m] == found.value;
        FirstMatchUnique(keys, kid, m, i - 1);
        return Success(pk);
      }
    }
    return Failure(KeyNotFound(kid));
  }
}

=== FILE: pipeline.dfy ===
/**
 * The two entry points of the reader: from the scanned QR text to the JWS
 * parts (`extract_jws_data_from_qr_data`), and from those parts to the
 * verdict of the issuer's signature (`validate_jws_data`).
 */
module Pipeline {
  import opened Wrappers
  import opened BigEndian
  import opened Text
  import opened Prefix
  import opened Transcoder
  import opened Jose
  import opened Compact
  import opened Signature
  import opened KeyResolution

  /** The signed document, the header and payload as JSON text, and the encoded signature. */
  datatype JwsData = JwsData(signedDoc: string, header: string, payload: string, sig: string)

  datatype ExtractError =
    | BadQrDigits(transcode: TranscodeError)
    | BadSegments(field: FieldError)

  /** The compact serialization a scanned QR text decodes to, if its digits are valid. */
  function Serialization(qrData: string): Result<string, TranscodeError>
  {
    Transcode(RemovePrefix(qrData, ShcPrefix))
  }

  /**
   * `extract_jws_data_from_qr_data`: strip `shc:/`, transcode the digits,
   * split into fields, and re-join the first two segments as the signed document.
   */
  function ExtractJwsData(qrData: string, lib: Library): (r: Result<JwsData, ExtractError>)
    ensures Serialization(qrData).Failure? ==> r == Failure(BadQrDigits(Serialization(qrData).error))
    ensures Serialization(qrData).Success? && B64ToFields(Serialization(qrData).value, lib).Failure? ==>
      r == Failure(BadSegments(B64ToFields(Serialization(qrData).value, lib).error))
    ensures r.Success? <==> Serialization(qrData).Success? && B64ToFields(Serialization(qrData).value, lib).Success?
    ensures r.Success? ==>
      var b64 := Serialization(qrData).value;
      && |Split(b64, Dot)| >= 3
      && Some(r.value.header) == HeaderText(Split(b64, Dot)[0], lib)
      && Some(r.value.payload) == PayloadText(Split(b64, Dot)[1], lib)
      && r.value.signedDoc == Split(b64, Dot)[0] + [Dot] + Split(b64, Dot)[1]
      && Count(r.value.signedDoc, Dot) == 1
      && r.value.sig == Split(b64, Dot)[2]
  {
    match Serialization(qrData)
    case Failure(e) => Failure(BadQrDigits(e))
    case Success(b64) =>
      match B64ToFields(b64, lib)
      case Failure(e) => Failure(BadSegments(e))
      case Success(fields) => Success(JwsData(SignedDoc(b64), fields.header, fields.payload, fields.signature))
  }

  /**
   * Whatever the segments decode to, a QR text whose digits (after the
   * optional `shc:/`) include a non-digit is rejected with exactly those
   * characters, and an odd number of digits is rejected with the length.
   */
  lemma ExtractRejectsBadDigits(qrData: string, lib: Library)
    ensures var digits := RemovePrefix(qrData, ShcPrefix);
      && (!AllDigits(digits) ==> ExtractJwsData(qrData, lib) == Failure(BadQrDigits(NonNumeric(NonDigits(digits)))))
      && (AllDigits(digits) && |digits| % 2 == 1 ==> ExtractJwsData(qrData, lib) == Failure(BadQrDigits(OddLength(|digits|))))
  {
  }

  /**
   * For a card whose serialization has exactly three segments, the signed
   * document, a dot and the signature segment give back the transcoded text.
   */
  lemma ExtractReassembles(qrData: string, lib: Library)
    requires ExtractJwsData(qrData, lib).Success?
    requires |Split(Serialization(qrData).value, Dot)| == 3
    ensures var d := ExtractJwsData(qrData, lib).value;
      d.signedDoc + [Dot] + d.sig == Serialization(qrData).value
  {
    SignedDocAndSignature(Serialization(qrData).value);
  }

  /** The prefix is optional: the bare digit string and the `shc:/` URI extract the same data. */
  lemma ExtractPrefixOptional(digits: string, lib: Library)
    requires AllDigits(digits)
    ensures ExtractJwsData(ShcPrefix + digits, lib) == ExtractJwsData(digits, lib)
  {
    RemoveAddedPrefix(digits, ShcPrefix);
    RemoveShcPrefixFromDigits(digits);
    assert Serialization(ShcPrefix + digits) == Serialization(digits);
  }

  datatype ValidateError =
    | MalformedHeader
    | MalformedPayload
    | KeySetUnavailable
    | NoKey(key: KeyError)
    | BadKeyCoordinate
    | BadSignatureEncoding
    | VerifierRaised        // Point(x, y) or ecdsa.verify raised

  /** The header parses, the payload names an issuer, and that issuer's key set was fetched. */
  predicate KeySetFetched(headerJson: string, payloadJson: string, lib: Library)
  {
    && lib.parseHeader(headerJson).Some?
    && GetPublicKeyUrl(payloadJson, lib).Some?
    && lib.fetch(GetPublicKeyUrl(payloadJson, lib).value).Some?
  }

  /** The lookup of the header's `kid` in the fetched key set. */
  function LookupKey(headerJson: string, payloadJson: string, lib: Library): Result<KeyRecord, KeyError>
    requires KeySetFetched(headerJson, payloadJson, lib)
  {
    PublicKeyFromKeyset(lib.fetch(GetPublicKeyUrl(payloadJson, lib).value).value,
                        lib.parseHeader(headerJson).value.kid, lib.parseKeySet)
  }

  /** Both coordinates of the key decode from base64url. */
  predicate CoordinatesDecode(k: KeyRecord, lib: Library)
  {
    B64Decode(k.x, lib).Some? && B64Decode(k.y, lib).Some?
  }

  /** What the verifier answers for the signature halves, read big-endian, against the key's point. */
  function Verdict(signedDoc: string, k: KeyRecord, sig: string, lib: Library): Option<bool>
    requires CoordinatesDecode(k, lib) && DecodeSig(sig, lib).Some?
  {
    var (rBytes, sBytes) := DecodeSig(sig, lib).value;
    lib.ecdsaVerify(FromBytes(rBytes), FromBytes(sBytes), signedDoc,
                    FromBytes(B64Decode(k.x, lib).value), FromBytes(B64Decode(k.y, lib).value))
  }

  /**
   * `validate_jws_data`: find the issuer's key for the header's `kid`, read
   * its coordinates and the signature halves as big-endian integers, and
   * return the ECDSA verdict over the signed document. Each error names the
   * first step that failed.
   */
  function ValidateJwsData(signedDoc: string, headerJson: string, payloadJson: string, sig: string, lib: Library)
    : (r: Result<bool, ValidateError>)
    ensures r.Success? ==>
      && lib.parseHeader(headerJson).Some?
      && GetPublicKeyUrl(payloadJson, lib).Some?
      && lib.fetch(GetPublicKeyUrl(payloadJson, lib).value).Some?
      && PublicKeyFromKeyset(lib.fetch(GetPublicKeyUrl(payloadJson, lib).value).value,
                             lib.parseHeader(headerJson).value.kid, lib.parseKeySet).Success?
      && (var k := PublicKeyFromKeyset(lib.fetch(GetPublicKeyUrl(payloadJson, lib).value).value,
                                       lib.parseHeader(headerJson).value.kid, lib.parseKeySet).value;
          B64Decode(k.x, lib).Some? && B64Decode(k.y, lib).Some?)
      && DecodeSig(sig, lib).Some?
    ensures r == Failure(MalformedHeader) <==> lib.parseHeader(headerJson).None?
    ensures r == Failure(MalformedPayload) <==>
      lib.parseHeader(headerJson).Some? && GetPublicKeyUrl(payloadJson, lib).None?
    ensures r == Failure(KeySetUnavailable) <==>
      && lib.parseHeader(headerJson).Some? && GetPublicKeyUrl(payloadJson, lib).Some?
      && lib.fetch(GetPublicKeyUrl(payloadJson, lib).value).None?
    ensures (r.Failure? && r.error.NoKey?) <==>
      KeySetFetched(headerJson, payloadJson, lib) && LookupKey(headerJson, payloadJson, lib).Failure?
    ensures r.Failure? && r.error.NoKey? ==> r.error.key == LookupKey(headerJson, payloadJson, lib).error
    ensures r == Failure(BadKeyCoordinate) <==>
      && KeySetFetched(headerJson, payloadJson, lib) && LookupKey(headerJson, payloadJson, lib).Success?
      && !CoordinatesDecode(LookupKey(headerJson, payloadJson, lib).value, lib)
    ensures r == Failure(BadSignatureEncoding) <==>
      && KeySetFetched(headerJson, payloadJson, lib) && LookupKey(headerJson, payloadJson, lib).Success?
      && CoordinatesDecode(LookupKey(headerJson, payloadJson, lib).value, lib)
      && DecodeSig(sig, lib).None?
    ensures r == Failure(VerifierRaised) <==>
      && KeySetFetched(headerJson, payloadJson, lib) && LookupKey(headerJson, payloadJson, lib).Success?
      && CoordinatesDecode(LookupKey(headerJson, payloadJson, lib).value, lib)
      && DecodeSig(sig, lib).Some?
      && Verdict(signedDoc, LookupKey(headerJson, payloadJson, lib).value, sig, lib).None?
    ensures r.Success? ==>
      && KeySetFetched(headerJson, payloadJson, lib) && LookupKey(headerJson, payloadJson, lib).Success?
      && CoordinatesDecode(LookupKey(headerJson, payloadJson, lib).value, lib)
      && DecodeSig(sig, lib).Some?
      && Verdict(signedDoc, LookupKey(headerJson, payloadJson, lib).value, sig, lib) == Some(r.value)
  {
    match lib.parseHeader(headerJson)
    case None => Failure(MalformedHeader)
    case Some(header) =>
      match GetPublicKeyUrl(payloadJson, lib)
      case None => Failure(MalformedPayload)
      case Some(url) =>
        match lib.fetch(url)
        case None => Failure(KeySetUnavailable)
        case Some(keysetJson) =>
          match PublicKeyFromKeyset(keysetJson, header.kid, lib.parseKeySet)
          case Failure(e) => Failure(NoKey(e))
          case Success(pk) =>
            match (B64Decode(pk.x, lib), B64Decode(pk.y, lib))
            case (None, _) => Failure(BadKeyCoordinate)
            case (_, None) => Failure(BadKeyCoordinate)
            case (Some(x), Some(y)) =>
              match DecodeSig(sig, lib)
              case None => Failure(BadSignatureEncoding)
              case Some((rBytes, sBytes)) =>
                match lib.ecdsaVerify(FromBytes(rBytes), FromBytes(sBytes), signedDoc, FromBytes(x), FromBytes(y))
                case None => Failure(VerifierRaised)
                case Some(valid) => Success(valid)
  }

  /**
   * When the issuer's key set has no qualifying record for the header's `kid`
   * (none at all, or only ones with a wrong type, use, algorithm, curve, or
   * with a private part), validation stops with KeyNotFound and never verifies.
   */
  lemma ValidateWithoutKey(signedDoc: string, headerJson: string, payloadJson: string, sig: string, lib: Library,
                           kid: string, iss: string, keys: seq<KeyRecord>)
    requires lib.parseHeader(headerJson) == Some(Header(kid))
    requires lib.parsePayload(payloadJson) == Some(Payload(iss))
    requires lib.fetch(KeyUrl(iss)).Some?
    requires lib.parseKeySet(lib.fetch(KeyUrl(iss)).value) == Some(JwkSet(Some(keys)))
    requires forall i :: 0 <= i < |keys| ==> !Qualifies(keys[i], kid)
    ensures ValidateJwsData(signedDoc, headerJson, payloadJson, sig, lib) == Failure(NoKey(KeyNotFound(kid)))
  {
  }

  /**
   * Whatever the length of the decoded signature, the outcome is the ECDSA
   * check over the signed document with R = bytes [0, 32) and S = bytes
   * [32, 64) of it (clamped, as no length is checked), against the
   * coordinates of the FIRST qualifying record of the issuer's key set; an
   * exception of the verifier is an error, not a `false` verdict.
   */
  lemma ValidateUsesFirstQualifyingKey(signedDoc: string, headerJson: string, payloadJson: string, sig: string,
                                       lib: Library, kid: string, iss: string, keys: seq<KeyRecord>, i: nat,
                                       x: seq<byte>, y: seq<byte>, sigBytes: seq<byte>)
    requires lib.parseHeader(headerJson) == Some(Header(kid))
    requires lib.parsePayload(payloadJson) == Some(Payload(iss))
    requires lib.fetch(KeyUrl(iss)).Some?
    requires lib.parseKeySet(lib.fetch(KeyUrl(iss)).value) == Some(JwkSet(Some(keys)))
    requires IsFirstMatch(keys, kid, i)
    requires B64Decode(keys[i].x, lib) == Some(x) && B64Decode(keys[i].y, lib) == Some(y)
    requires B64Decode(sig, lib) == Some(sigBytes)
    ensures var n := |sigBytes|;
      var verdict := lib.ecdsaVerify(FromBytes(sigBytes[..Min(32, n)]), FromBytes(sigBytes[Min(32, n)..Min(64, n)]),
                                     signedDoc, FromBytes(x), FromBytes(y));
      ValidateJwsData(signedDoc, headerJson, payloadJson, sig, lib)
        == if verdict.Some? then Success(verdict.value) else Failure(VerifierRaised)
  {
    var found := FindKey(keys, kid);
    var m :| IsFirstMatch(keys, kid, m) && keys[m] == found.value;
    FirstMatchUnique(keys, kid, m, i);
  }
}

=== FILE: prefix.dfy ===
/** Removing the `shc:/` scheme marker from the text a SMART Health Card QR code carries. */
module Prefix {

  /** The URI scheme marker in front of the numeric part of a card's QR text. */
  const ShcPrefix: string := "shc:/"

  /** `remove_prefix`: drop `prefix` from the front of `text` when it is there. */
  function RemovePrefix(text: string, prefix: string): (r: string)
    ensures prefix <= text ==> prefix + r == text
    ensures !(prefix <= text) ==> r == text
  {
    if prefix <= text then text[|prefix|..] else text
  }

  /** Prepending the prefix and removing it again is the identity. */
  lemma RemoveAddedPrefix(t: string, prefix: string)
    ensures RemovePrefix(prefix + t, prefix) == t
  {
  }

  /**
   * A string of decimal digits does not start with `shc:/` (its first character
   * is not `s`), so stripping the marker from an already bare digit string is the identity.
   */
  lemma {:induction false} RemoveShcPrefixFromDigits(digits: string)
    requires forall i :: 0 <= i < |digits| ==> '0' <= digits[i] <= '9'
    ensures RemovePrefix(digits, ShcPrefix) == digits
  {
    if |digits| > 0 {
      assert digits[0] != ShcPrefix[0];
    }
  }
}

=== FILE: signature.dfy ===
/**
 * The ES256 signature layout (section 3.4 of RFC 7518): R and S, each a
 * 32-byte big-endian unsigned integer, concatenated.
 */
module Signature {
  import opened Wrappers
  import opened BigEndian
  import opened Jose
  import opened Compact

  const HalfLength: nat := 32

  /**
   * `sig[0:32]` and `sig[32:64]` with Python's clamping slices: no length is
   * checked, so a short signature gives short parts and bytes past 64 are dropped.
   */
  function SliceSig(sig: seq<byte>): (rs: (seq<byte>, seq<byte>))
    ensures rs.0 + rs.1 == sig[..Min(2 * HalfLength, |sig|)]
    ensures |rs.0| == Min(HalfLength, |sig|) && |rs.1| <= HalfLength
  {
    (sig[..Min(HalfLength, |sig|)], sig[Min(HalfLength, |sig|)..Min(2 * HalfLength, |sig|)])
  }

  /** `decode_sig`: base64url-decode the signature segment, then slice it. */
  function DecodeSig(b64Sig: string, lib: Library): (r: Option<(seq<byte>, seq<byte>)>)
    ensures r.Some? <==> B64Decode(b64Sig, lib).Some?
    ensures r.Some? ==> r.value == SliceSig(B64Decode(b64Sig, lib).value)
  {
    match B64Decode(b64Sig, lib)
    case None => None
    case Some(sig) => Some(SliceSig(sig))
  }

  /** A signature of exactly 64 bytes splits into two 32-byte halves that make it up. */
  lemma SliceExact(sig: seq<byte>)
    requires |sig| == 2 * HalfLength
    ensures |SliceSig(sig).0| == HalfLength == |SliceSig(sig).1|
    ensures SliceSig(sig).0 + SliceSig(sig).1 == sig
  {
  }

  /**
   * For a signature of at least 64 bytes, R and S read as integers are below
   * 2^256 and together make up the 512-bit reading of the first 64 bytes.
   */
  lemma {:induction false} SliceIntegers(sig: seq<byte>)
    requires |sig| >= 2 * HalfLength
    ensures FromBytes(SliceSig(sig).0) < Pow256(HalfLength)
    ensures FromBytes(SliceSig(sig).1) < Pow256(HalfLength)
    ensures FromBytes(SliceSig(sig).0) * Pow256(HalfLength) + FromBytes(SliceSig(sig).1) == FromBytes(sig[..2 * HalfLength])
  {
    var (r, s) := SliceSig(sig);
    assert |s| == HalfLength;
    FromBytesAppend(r, s);
  }
}

=== FILE: text.dfy ===
/**
 * Splitting a string on a separator character and joining the pieces back,
 * with the semantics of Python's `str.split(sep)` and `sep.join(parts)`.
 */
module Text {

  /** Number of occurrences of `c` in `s`. */
  function Count(s: string, c: char): nat
  {
    if s == [] then 0 else (if s[0] == c then 1 else 0) + Count(s[1..], c)
  }

  /** `sep.join(parts)`: the parts in order, a separator between neighbours. */
  function Join(parts: seq<string>, sep: char): string
    requires |parts| >= 1
  {
    if |parts| == 1 then parts[0] else parts[0] + [sep] + Join(parts[1..], sep)
  }

  /**
   * `s.split(sep)`: the maximal separator-free pieces of `s`, including empty
   * ones between adjacent separators and at either end.
   */
  function Split(s: string, sep: char): (parts: seq<string>)
    ensures |parts| == Count(s, sep) + 1
    ensures forall i :: 0 <= i < |parts| ==> sep !in parts[i]
  {
    if s == [] then [""]
    else
      var rest := Split(s[1..], sep);
      if s[0] == sep then [""] + rest
      else [[s[0]] + rest[0]] + rest[1..]
  }

  /** Splitting loses nothing: joining the pieces gives the original string back. */
  lemma {:induction false} JoinSplit(s: string, sep: char)
    ensures Join(Split(s, sep), sep) == s
  {
    if s != [] {
      var rest := Split(s[1..], sep);
      JoinSplit(s[1..], sep);
      if s[0] == sep {
        assert Split(s, sep)[1..] == rest;
      } else {
        var parts := Split(s, sep);
        if |rest| == 1 {
          assert parts == [[s[0]] + rest[0]];
        } else {
          assert parts[1..] == rest[1..];
          assert Join(rest, sep) == rest[0] + [sep] + Join(rest[1..], sep);
        }
      }
    }
  }

  /** Joining separator-free pieces and splitting again gives the same pieces. */
  lemma {:induction false} SplitJoin(parts: seq<string>, sep: char)
    requires |parts| >= 1
    requires forall i :: 0 <= i < |parts| ==> sep !in parts[i]
    ensures Split(Join(parts, sep), sep) == parts
  {
    if |parts| == 1 {
      SplitNoSep(parts[0], sep);
    } else {
      SplitJoin(parts[1..], sep);
      SplitPieceThenSep(parts[0], Join(parts[1..], sep), sep);
    }
  }

  /** A string without the separator is a single piece. */
  lemma {:induction false} SplitNoSep(s: string, sep: char)
    requires sep !in s
    ensures Split(s, sep) == [s]
  {
    if s != [] {
      SplitNoSep(s[1..], sep);
      assert [s[0]] + s[1..] == s;
    }
  }

  /** A separator-free piece followed by a separator becomes the first piece. */
  lemma {:induction false} SplitPieceThenSep(piece: string, tail: string, sep: char)
    requires sep !in piece
    ensures Split(piece + [sep] + tail, sep) == [piece] + Split(tail, sep)
  {
    if piece == [] {
      assert piece + [sep] + tail == [sep] + tail;
      assert ([sep] + tail)[1..] == tail;
    } else {
      var s := piece + [sep] + tail;
      assert s[0] == piece[0] && s[1..] == piece[1..] + [sep] + tail;
      SplitPieceThenSep(piece[1..], tail, sep);
      assert [piece[0]] + piece[1..] == piece;
    }
  }

  /** Joining a concatenation of two non-empty lists puts one separator between their joins. */
  lemma {:induction false} JoinAppend(a: seq<string>, b: seq<string>, sep: char)
    requires |a| >= 1 && |b| >= 1
    ensures Join(a + b, sep) == Join(a, sep) + [sep] + Join(b, sep)
  {
    if |a| > 1 {
      JoinAppend(a[1..], b, sep);
      assert (a + b)[1..] == a[1..] + b;
    } else {
      assert (a + b)[1..] == b;
    }
  }

  /** Occurrences of a character add up over concatenation. */
  lemma {:induction false} CountAppend(a: string, b: string, c: char)
    ensures Count(a + b, c) == Count(a, c) + Count(b, c)
  {
    if a == [] {
      assert a + b == b;
    } else {
      assert (a + b)[1..] == a[1..] + b;
      CountAppend(a[1..], b, c);
    }
  }

  /** A string free of `c` has no occurrence of it. */
  lemma {:induction false} CountAbsent(s: string, c: char)
    requires c !in s
    ensures Count(s, c) == 0
  {
    if s != [] {
      CountAbsent(s[1..], c);
    }
  }
}

=== FILE: transcoder.dfy ===
/**
 * The numeric QR encoding of the SMART Health Cards framework: every character
 * of the compact JWS is written as the two decimal digits of its code point
 * minus 45. `qr_int_str_to_b64` reverses it.
 */
module Transcoder {
  import opened Wrappers

  /** Code point of the character a digit pair `00` stands for. */
  const Offset: nat := 45

  /** Why a numeric string was rejected; both are a ValueError in the reader. */
  datatype TranscodeError =
    | NonNumeric(invalid: set<char>)  // every character of the input that is not 0-9
    | OddLength(length: nat)          // the input length, when it is odd

  predicate IsDigit(c: char)
  {
    '0' <= c <= '9'
  }

  predicate AllDigits(s: string)
  {
    forall i :: 0 <= i < |s| ==> IsDigit(s[i])
  }

  function DigitValue(c: char): (d: nat)
    requires IsDigit(c)
    ensures d <= 9
  {
    (c as int) - ('0' as int)
  }

  /** `int(two_digits)`: the two-digit decimal number written `hi lo`. */
  function PairValue(hi: char, lo: char): (n: nat)
    requires IsDigit(hi) && IsDigit(lo)
    ensures n <= 99
  {
    10 * DigitValue(hi) + DigitValue(lo)
  }

  /** `chr(int(two_digits) + 45)` */
  function PairChar(hi: char, lo: char): (c: char)
    requires IsDigit(hi) && IsDigit(lo)
    ensures c as int == PairValue(hi, lo) + Offset
  {
    (PairValue(hi, lo) + Offset) as char
  }

  /** The characters of a valid numeric string, pair by pair from the front. */
  function DecodePairs(s: string): (r: string)
    requires AllDigits(s) && |s| % 2 == 0
    ensures |r| == |s| / 2
  {
    if s == [] then [] else [PairChar(s[0], s[1])] + DecodePairs(s[2..])
  }

  /** Output character `i` is the pair at positions `2i`, `2i+1` read as a decimal number, plus 45. */
  lemma {:induction false} DecodePairsAt(s: string, i: nat)
    requires AllDigits(s) && |s| % 2 == 0 && i < |s| / 2
    ensures DecodePairs(s)[i] as int == 10 * DigitValue(s[2 * i]) + DigitValue(s[2 * i + 1]) + Offset
  {
    if i > 0 {
      DecodePairsAt(s[2..], i - 1);
    }
  }

  /** The input characters that are not decimal digits. */
  function NonDigits(s: string): set<char>
  {
    set c | c in s && !IsDigit(c)
  }

  /** The offending set is empty exactly when every character is a digit. */
  lemma NonDigitsEmpty(s: string)
    ensures NonDigits(s) == {} <==> AllDigits(s)
  {
    if !AllDigits(s) {
      var i :| 0 <= i < |s| && !IsDigit(s[i]);
      assert s[i] in NonDigits(s);
    }
  }

  /**
   * What `qr_int_str_to_b64` returns or raises: the non-digit check first,
   * then the parity check, then the pairwise decoding.
   */
  function Transcode(qr: string): (r: Result<string, TranscodeError>)
    ensures r.Failure? && r.error.NonNumeric? <==> !AllDigits(qr)
    ensures r.Failure? && r.error.NonNumeric? ==>
      r.error.invalid == NonDigits(qr) != {}
    ensures r.Failure? && r.error.OddLength? <==> AllDigits(qr) && |qr| % 2 == 1
    ensures r.Failure? && r.error.OddLength? ==> r.error.length == |qr|
    ensures r.Success? ==> AllDigits(qr) && |qr| % 2 == 0 && |r.value| == |qr| / 2
  {
    var invalid := NonDigits(qr);
    NonDigitsEmpty(qr);
    if |invalid| > 0 then
      Failure(NonNumeric(invalid))
    else if |qr| % 2 > 0 then
      Failure(OddLength(|qr|))
    else
      Success(DecodePairs(qr))
  }

  /** `qr_int_str_to_b64`: validates, then appends one character per digit pair. */
  method QrIntStrToB64(qr: string) returns (r: Result<string, TranscodeError>)
    ensures r == Transcode(qr)
  {
    var invalid := NonDigits(qr);
    if |invalid| > 0 {
      return Failure(NonNumeric(invalid));
    }
    var strLen := |qr|;
    if strLen % 2 > 0 {
      return Failure(OddLength(strLen));
    }
    NonDigitsEmpty(qr);
    var decoded: string := [];
    var start := 0;
    while start < strLen
      invariant 0 <= start <= strLen && start % 2 == 0
      invariant decoded == DecodePairs(qr[..start])
    {
      DecodePairsAppend(qr[..start], qr[start..start + 2]);
      assert qr[..start] + qr[start..start + 2] == qr[..start + 2];
      decoded := decoded + [PairChar(qr[start], qr[start + 1])];
      start := start + 2;
    }
    assert qr[..start] == qr;
    return Success(decoded);
  }

  /** On valid input, output character `i` has the code of the `i`-th digit pair plus 45, in [45, 144]. */
  lemma TranscodeAt(qr: string, i: nat)
    requires Transcode(qr).Success? && i < |Transcode(qr).value|
    ensures var c := Transcode(qr).value[i] as int;
      c == 10 * DigitValue(qr[2 * i]) + DigitValue(qr[2 * i + 1]) + Offset && Offset <= c <= 99 + Offset
  {
    DecodePairsAt(qr, i);
  }

  /** Decoding distributes over concatenation of valid numeric strings. */
  lemma {:induction false} DecodePairsAppend(a: string, b: string)
    requires AllDigits(a) && |a| % 2 == 0
    requires AllDigits(b) && |b| % 2 == 0
    ensures DecodePairs(a + b) == DecodePairs(a) + DecodePairs(b)
  {
    if a == [] {
      assert a + b == b;
    } else {
      assert (a + b)[2..] == a[2..] + b;
      DecodePairsAppend(a[2..], b);
    }
  }

  /** The same distribution stated on the reader's own operation. */
  lemma TranscodeAppend(a: string, b: string)
    requires Transcode(a).Success? && Transcode(b).Success?
    ensures Transcode(a + b) == Success(Transcode(a).value + Transcode(b).value)
  {
    assert AllDigits(a + b);
    DecodePairsAppend(a, b);
  }

  /** The characters the numeric encoding can carry. */
  predicate Encodable(t: string)
  {
    forall i :: 0 <= i < |t| ==> Offset <= t[i] as int <= 99 + Offset
  }

  /** The encoder the framework prescribes: two decimal digits of `code point - 45` per character. */
  function Encode(t: string): (s: string)
    requires Encodable(t)
    ensures AllDigits(s) && |s| == 2 * |t|
  {
    if t == [] then []
    else
      var v := t[0] as int - Offset;
      [(v / 10 + '0' as int) as char, (v % 10 + '0' as int) as char] + Encode(t[1..])
  }

  /** Decoding undoes the encoder. */
  lemma {:induction false} DecodeEncode(t: string)
    requires Encodable(t)
    ensures DecodePairs(Encode(t)) == t
  {
    if t != [] {
      var s := Encode(t);
      assert s[2..] == Encode(t[1..]);
      DecodeEncode(t[1..]);
    }
  }

  /** Encoding undoes decoding: the numeric encoding is a bijection. */
  lemma {:induction false} EncodeDecode(s: string)
    requires AllDigits(s) && |s| % 2 == 0
    ensures Encodable(DecodePairs(s)) && Encode(DecodePairs(s)) == s
  {
    if s != [] {
      var t := DecodePairs(s);
      assert t[1..] == DecodePairs(s[2..]);
      EncodeDecode(s[2..]);
      assert s == [s[0], s[1]] + s[2..];
    }
  }

  /** The reader's own conversion examples: "43" is "X" and "4343" is "XX". */
  lemma ConversionExamples()
    ensures Transcode("43") == Success("X")
    ensures Transcode("4343") == Success("XX")
  {
    assert AllDigits("43") && "43"[2..] == [];
    NonDigitsEmpty("43");
    assert DecodePairs("43") == "X";
    TranscodeAppend("43", "43");
    assert "43" + "43" == "4343" && "X" + "X" == "XX";
  }

  /** The reader's own rejection examples, and an odd-length one. */
  lemma RejectionExamples()
    ensures Transcode("abc").Failure? && Transcode("123#").Failure? && Transcode("A123").Failure?
    ensures Transcode("--12").Failure? && Transcode("123 ").Failure?
    ensures Transcode("123") == Failure(OddLength(3))
  {
  }
}

=== FILE: wrappers.dfy ===
/** Failure-carrying return values, standing in for the exceptions the reader raises. */
module Wrappers {

  datatype Option<+T> = None | Some(value: T)

  datatype Result<+R, +E> = Success(value: R) | Failure(error: E)
}
